=== FILE: README.md ===
# assertExactEquals, modelled in Dafny

`assertExactEquals($expected, $actual, $message, $lineLength)` is a method of a
test-case trait from phelp, whose host provides `assertTrue`. It compares two
values with `===`. When they are identical, or when `$lineLength` is below 1,
it passes the caller's message to the host's `assertTrue` unchanged. Otherwise it builds a diagnostic and passes that to
`assertTrue`, then returns the result of the comparison. The diagnostic is built
in three steps:

- a header: the trimmed message, a blank line, and a summary line naming both
  types;
- the `var_dump` output of both values, cleaned of the file/line traces that
  `var_dump` prints after the helper's own file name;
- a box `lineLength - 1` columns wide. It has a rule of `#` above and below,
  and every line of the message hard-wrapped into it. A line's first row is
  led by `# ` and its continuation rows by `> `.

The project has five modules.

- `Php` (`php.dfy`) models the string builtins the helper calls: `implode`,
  `explode`, `trim`/`ltrim`, `ctype_digit`, `str_repeat`, `str_split` and
  `preg_split('~\R~u', …)`. Each comes with the lemmas the rest needs, for
  example that `explode` undoes `implode` and that joining the lines of a text
  with LF gives the text with every line break made an LF.
- `SummaryLine` (`summary_line.dfy`) holds the summary line and the proof that
  it can be read back.
- `AssertExactEquals` (`assert_exact_equals.dfy`) is the helper itself. The
  pure stages are functions. The cleanup loops and the prefix loop are methods
  proved against those functions. The host test case is a class whose
  `assertions` field logs every call of `assertTrue`.
- `BoxLayout` (`box_layout.dfy`) gives a second, row-by-row definition of the
  box and proves that the rendering pipeline produces exactly those rows:
  - from `lineLength` 2 up, no row is wider than `lineLength - 1`;
  - the rows between the rules can be read back as the lines of the message.
- `Labels` (`labels.dfy`) follows the `EXPECTED:` label from the output
  buffer through the cleanup and the box, into the message read back from
  the rows.

The runtime parts of the comparison are inputs to the model. The `Values` record
holds the result of `===`, `gettype` of each value and the text `var_dump`
prints for each. `__FILE__` is the `marker` parameter and `PHP_EOL` is `"\n"`.

Some details of the code are worth stating outright, since the model
follows them exactly:

- The summary line keeps the literal `$actual` and `$expected` of its
  format string; only the two type names are filled in.
- The cleanup drops every leading `:`-separated segment that is empty or all
  digits, not just one line number, and then left-trims the first remaining
  segment.
- The message is trimmed as a whole before it is split into lines.
- Only a `lineLength` below 1 takes the fast path. From 1 to 3 every line
  renders empty, so the box holds only bare `#` rows, and none of the
  message shows. `BoxLayout.NarrowBodyRows` and `BoxLayout.BoxedTextRows`
  state this.
- From 4 up every line is wrapped into chunks of `lineLength - 3`
  characters. The literal `EXPECTED:` (9 characters) therefore shows whole
  in one row only from `lineLength` 12 up, and `ACTUAL:` only from 10 up.
  Below that a label is split over a first row and its `> ` continuations.
  Read back by joining each line's rows, the message holds a line starting
  with `EXPECTED:` for every `lineLength` from 4 up, as long as the marker
  does not occur before the label. `Labels.ExpectedLabelReadBack` states
  this.
- At `lineLength` 1 the rules are empty while every row between them is a
  `#` one column wide. No row is then wider than `lineLength`, but the rows
  between the rules are wider than `lineLength - 1`. From 2 up, every row is
  at most `lineLength - 1` wide.

## Model

| member | source | states |
|---|---|---|
| `AssertExactEquals.TestCase.AssertExactEquals` | tests/Utility/AssertExactEquals.php:26-116 | returns the result of `===`, and appends exactly one call to the `assertTrue` log: `Reported(...)`, which is the caller's message on the fast path and the boxed diagnostic otherwise |
| `AssertExactEquals.TestCase.AssertTrue` | tests/Utility/AssertExactEquals.php:14 | the host primitive appends `(condition, message)` to the log and changes nothing else |
| `BoxLayout.ReportedMessage` | tests/Utility/AssertExactEquals.php:28-79 | the condition handed to `assertTrue` is always the `===` result; on the fast path (identical, or `lineLength < 1`) the message is the caller's, untouched; otherwise it starts with `lineLength - 1` `#`, LF, `#` and ends with LF and `lineLength - 1` `#` |
| `AssertExactEquals.HeaderKeepsMessage` | tests/Utility/AssertExactEquals.php:38-48 | two headers with the same types are equal only if the trimmed messages are equal: the header keeps the whole trimmed message |
| `SummaryLine.SummaryNamesTypes` | tests/Utility/AssertExactEquals.php:44-48 | two summary lines are equal only if they name the same actual type and the same expected type, in that order, provided the actual type name holds no `)` |
| `AssertExactEquals.LeadingNoise` | tests/Utility/AssertExactEquals.php:63-69 | counts the leading segments that are empty or all digits; the segment after them, if any, is neither |
| `AssertExactEquals.KeptAfterNoise` | tests/Utility/AssertExactEquals.php:63-69 | the segments that survive are decided by the leading noise: none when every segment is noise, otherwise the first other segment left-trimmed followed by every later segment verbatim, in order |
| `AssertExactEquals.KeptFrom` | tests/Utility/AssertExactEquals.php:63-69 | wherever the loop stops (all segments before it noise, and the one it stops at not noise, if any) the segments it keeps are the surviving segments |
| `AssertExactEquals.CleanTraces` | tests/Utility/AssertExactEquals.php:60-72 | the cleanup returns `CleanTrace(marker, text)`: split on the marker, clean every fragment after the first, join with nothing |
| `AssertExactEquals.CleanFragments` | tests/Utility/AssertExactEquals.php:61-71 | the loop that rewrites the fragments in place leaves the first fragment as it was and every later one cleaned, in order |
| `AssertExactEquals.CleanOneFragment` | tests/Utility/AssertExactEquals.php:62-70 | the inner loop with its `unset` and `break` computes `CleanFragment`: noise segments dropped from the front, the first survivor left-trimmed, the rest joined with `:` |
| `AssertExactEquals.CleanTraceKeepsHead` | tests/Utility/AssertExactEquals.php:60-72 | the text before the first occurrence of the marker is a prefix of the result; a text without the marker comes through unchanged |
| `AssertExactEquals.CleanFragmentDropsPrefix` | tests/Utility/AssertExactEquals.php:62-70 | cleaning a fragment only cuts a prefix made of digits, `:` and whitespace, so the result is a suffix of the fragment; when every segment is noise the result is `""` |
| `AssertExactEquals.KeptIsSuffix` | tests/Utility/AssertExactEquals.php:63-70 | the kept segments joined with `:` are the joined segments with a prefix of digits, `:` and whitespace cut off |
| `AssertExactEquals.CleanFragmentStripsLocation` | tests/Utility/AssertExactEquals.php:62-70 | a fragment `:<digits>:rest` whose first segment of `rest` is not noise is cleaned to `ltrim(rest)`: the later segments are kept verbatim and in order |
| `AssertExactEquals.CleanTraceStripsLocation` | tests/Utility/AssertExactEquals.php:60-72 | `head . marker . ":<digits>:" . rest`, with the marker only there, is cleaned to `head . ltrim(rest)`: the marker and the location vanish |
| `AssertExactEquals.RenderLine` | tests/Utility/AssertExactEquals.php:83-104 | the closure, with its in-place prefix loop, computes `Rendered`: `""` when `lineLength - 3 < 1` or the line is empty, else the chunks led by ` ` and `> ` joined with LF |
| `AssertExactEquals.RenderLines` | tests/Utility/AssertExactEquals.php:82-107 | the `array_map` renders every line, one result per line, in order |
| `BoxLayout.LineRowsRendered` | tests/Utility/AssertExactEquals.php:83-104 | `#` followed by a rendered line is the line's rows joined with LF: `# ` and the first chunk, then `> ` and each later chunk |
| `BoxLayout.BodyRowsRendered` | tests/Utility/AssertExactEquals.php:80-107 | the rendered lines, led by `#` and joined by `EOL . '#'`, are all the lines' rows joined with LF |
| `BoxLayout.BoxRows` | tests/Utility/AssertExactEquals.php:74-79 | the filled template is a rule, the body rows and a rule, joined with LF |
| `BoxLayout.LineRowsShape` | tests/Utility/AssertExactEquals.php:84-104 | a line's first row starts with `#`, every later row is a `> ` continuation, and no row holds a LF or, from `lineLength` 2 up, is wider than `lineLength - 1` |
| `BoxLayout.BodyRowsShape` | tests/Utility/AssertExactEquals.php:80-107 | the body starts with a first row, and no body row holds a LF or, from `lineLength` 2 up, is wider than `lineLength - 1` |
| `BoxLayout.NarrowBodyRows` | tests/Utility/AssertExactEquals.php:84-88 | for `lineLength` below 4 each line of the message gives a single bare `#` row |
| `BoxLayout.BoxExplode` | tests/Utility/AssertExactEquals.php:74-109 | for every `lineLength` from 1 up, cutting the box at its LFs gives back exactly the rule, the body rows and the rule; from 2 up each of those rows fits |
| `BoxLayout.BoxWidths` | tests/Utility/AssertExactEquals.php:74-104 | for every `lineLength` from 1 up no row of the box is wider than `lineLength`, and from 2 up none is wider than `lineLength - 1` |
| `BoxLayout.UnboxBodyRows` | tests/Utility/AssertExactEquals.php:80-107 | from `lineLength` 4 up, reading the body rows back (a first row plus its continuations per line) gives the lines of the message |
| `BoxLayout.BoxedTextRows` | tests/Utility/AssertExactEquals.php:74-109 | for every `lineLength` from 1 up, the box around any text has rules first and last, at least one row between them, and no row wider than `lineLength` (from 2 up, than `lineLength - 1`); from width 4 up the rows read back as the text with its breaks made LF; below 4 every inner row is `#`, one per line |
| `BoxLayout.DiagnosticRows` | tests/Utility/AssertExactEquals.php:38-109 | the same for the diagnostic itself, from `lineLength` 1 up: rules first and last, the same width bounds, rows that read back as the trimmed, cleaned header-plus-dumps text with line breaks normalised from width 4 up, and bare `#` rows, one per line, below 4 |
| `Labels.HeaderEnds` | tests/Utility/AssertExactEquals.php:38-48 | the header is not empty, does not start with a character `trim` removes, and ends with the summary's last character |
| `Labels.BufferedStart` | tests/Utility/AssertExactEquals.php:50-53 | the buffer starts with the header, two LFs and `EXPECTED:` |
| `Labels.CleanedFront` | tests/Utility/AssertExactEquals.php:60-72 | a front of the buffer that ends before the marker's first occurrence, and neither starts nor ends with a character `trim` removes, survives the cleanup and the trim |
| `Labels.LabelAfterCleanup` | tests/Utility/AssertExactEquals.php:59-72 | for a buffer that starts with the header, a blank line and `EXPECTED:`, with no marker before the label, the lines of the cleaned and trimmed buffer are the header's lines, an empty line, and a line starting with `EXPECTED:` |
| `Labels.MessageLines` | tests/Utility/AssertExactEquals.php:38-72 | the same for the buffer `assertExactEquals` fills: the header's lines, an empty line, a line starting with `EXPECTED:` |
| `Labels.ExpectedLabelReadBack` | tests/Utility/AssertExactEquals.php:38-109 | from `lineLength` 4 up, the message read back from the diagnostic's rows holds the header's lines, an empty line and a line starting with `EXPECTED:`, as long as the marker does not occur before the label |
| `AssertExactEquals.Header` | tests/Utility/AssertExactEquals.php:38-48 | definition, no contract: the trimmed message and a blank line (when not empty), then the summary line; `HeaderKeepsMessage` and `Labels.HeaderEnds` state its properties |
| `AssertExactEquals.Buffered` | tests/Utility/AssertExactEquals.php:50-57 | definition, no contract: what the two `echo`s and `var_dump`s leave in the output buffer, in order; `Labels.BufferedStart` states its front |
| `AssertExactEquals.Box` | tests/Utility/AssertExactEquals.php:74-79 | definition, no contract: the template filled with the rendered lines; `BoxLayout.BoxRows` and `BoxLayout.BoxExplode` state its rows |
| `AssertExactEquals.Diagnostic` | tests/Utility/AssertExactEquals.php:38-109 | definition, no contract: header, buffer, cleanup, trim, split, render, box; `BoxLayout.DiagnosticRows` and `Labels.ExpectedLabelReadBack` state its properties |
| `AssertExactEquals.Reported` | tests/Utility/AssertExactEquals.php:28-112 | definition, no contract: the one `(condition, message)` pair handed to `assertTrue`; `BoxLayout.ReportedMessage` states its properties |
| `SummaryLine.Summary` | tests/Utility/AssertExactEquals.php:44-48 | definition, no contract: the `sprintf` of the summary line; `SummaryLine.SummaryNamesTypes` states that it can be read back |
| `BoxLayout.DiagnosticFramed` | tests/Utility/AssertExactEquals.php:74-79 | the diagnostic starts with the rule, LF and `#`, and ends with LF and the rule |
| `Php.Concat` | tests/Utility/AssertExactEquals.php:72 | definition, no contract: `implode('', …)` |
| `Php.Join` | tests/Utility/AssertExactEquals.php:70 | definition, no contract: `implode(sep, …)`; `Php.ExplodeJoin` and the `Join` lemmas state its properties |
| `Php.IsDigits` | tests/Utility/AssertExactEquals.php:64 | definition, no contract: `ctype_digit`, true of a non-empty string of ASCII digits only |
| `Php.Explode` | tests/Utility/AssertExactEquals.php:60 | `explode` yields at least one piece, and joining the pieces with the separator gives the input back |
| `Php.ExplodeFirst` | tests/Utility/AssertExactEquals.php:60 | the first piece is the text before the first occurrence; there is one piece exactly when the separator does not occur |
| `Php.ExplodeFree` | tests/Utility/AssertExactEquals.php:62 | no piece contains the separator |
| `Php.ExplodeJoin` | tests/Utility/AssertExactEquals.php:70 | for a one-character separator, `explode` undoes `implode` on parts free of it |
| `Php.ExplodeOnce` | tests/Utility/AssertExactEquals.php:60 | a text holding the separator exactly once splits into the two sides of it |
| `Php.LTrim` | tests/Utility/AssertExactEquals.php:65 | `ltrim` removes exactly the leading run of `" \t\n\r\0\x0B"` |
| `Php.Trim` | tests/Utility/AssertExactEquals.php:38 | `trim` leaves a prefix of the left-trimmed text: it cuts off exactly the trailing run of trimmable characters, so the result neither starts nor ends with one |
| `Php.JoinLTrimHead` | tests/Utility/AssertExactEquals.php:65-70 | left-trimming the first segment and then joining with a non-whitespace separator is left-trimming the joined text |
| `Php.Repeat` | tests/Utility/AssertExactEquals.php:74 | `str_repeat('#', n)` has length `n` and only `#` |
| `Php.Chunks` | tests/Utility/AssertExactEquals.php:90 | `str_split` chunks concatenate to the input, all have length `w` except the last, which has 1 to `w`, and there are none only for the empty string |
| `Php.SplitLines` | tests/Utility/AssertExactEquals.php:106 | `preg_split('~\R~u')` yields at least one line, none holding a line-break character |
| `Php.SplitLinesJoin` | tests/Utility/AssertExactEquals.php:106 | joining the lines with LF gives the text with every `\R` break (CR LF counted once) replaced by LF |
| `Php.SplitLinesAfterLf` | tests/Utility/AssertExactEquals.php:106 | the lines of `a . LF . b`, when `a` does not end with CR, are the lines of `a` followed by the lines of `b` |
| `Php.SplitLinesRoundTrip` | tests/Utility/AssertExactEquals.php:106 | on text whose only breaks are LF, splitting into lines is undone by joining with LF |

## Left out

- `===`, `gettype` and `var_dump` work on dynamic PHP values. The model takes their results as the `Values` record.
- The output buffer (`ob_start`, `echo`, `ob_get_clean`) is modelled only as the concatenation `Buffered` of what is echoed, in order.
- The `(string)` casts of `$message` and `$line` are not modelled; both are strings here.
- The model has no default arguments. A call that omits `$message` or `$lineLength` is the model's call with `''` or `80` in its place.
- `__FILE__` is the `marker` parameter and `PHP_EOL` is `"\n"`.
- The host `assertTrue` is a recorded call. An exception the host may throw when the condition is false is not modelled, so the model always returns.
- PHP strings are bytes, while the model's strings are characters. The model agrees with `str_split`, `trim` and `ctype_digit` on single-byte text only.
- `str_split` follows PHP 8.2 and later: the empty string gives no chunk, so an empty line renders as `""`. Before 8.2 it gave one empty chunk, and the line rendered as `" "`.
- `preg_split` returns `false` on text that is not valid UTF-8, and `array_map` then fails. This error path is not modelled; every string is treated as valid.
- SummaryLine.SummaryNamesTypes: the read-back needs the actual type name to hold no `)`. Every `gettype` name except `"resource (closed)"` meets this.
- BoxLayout.UnboxBodyRows: reading the rows back holds only from `lineLength` 4 up. Below that no text reaches the box.
- Labels.ExpectedLabelReadBack: only the `EXPECTED:` label is followed into the read-back message. For `ACTUAL:` the same line-start statement fails: a dump that ends with the marker makes the cleanup left-trim the LF before `ACTUAL:`, so the label can end up in the middle of the dump's last line. The label itself survives whenever the marker holds no LF and is not a substring of `ACTUAL: `, so the read-back text still contains `ACTUAL:`; the model does not prove this containment.
- Labels.ExpectedLabelReadBack: it needs the marker not to occur before the `EXPECTED:` label, that is in the caller's message or the type names. Where it does, the cleanup may cut into the header and the label.

=== FILE: assert_exact_equals.dfy ===
/**
 * The `assertExactEquals` test helper: compare two values with `===`, and
 * when they differ hand the host's `assertTrue` a boxed diagnostic showing
 * both values' `var_dump` output.
 *
 * What the PHP runtime knows about the two values (the result of `===`,
 * `gettype` of each, and each `var_dump` text) arrives as a `Values`
 * record; `__FILE__` is the `marker` parameter.
 */
module AssertExactEquals {
  import opened Php
  import opened SummaryLine

  /** What the runtime reports about `$expected` and `$actual`. */
  datatype Values = Values(
    identical: bool,       // $expected === $actual
    expectedType: string,  // gettype($expected)
    actualType: string,    // gettype($actual)
    expectedDump: string,  // what var_dump($expected) prints
    actualDump: string)    // what var_dump($actual) prints

  /** One call of the host's `assertTrue($condition, $message)`. */
  datatype Assertion = Assertion(condition: bool, message: string)

  /** No diagnostic is built when the values are identical or the line length is below 1. */
  predicate FastPath(identical: bool, lineLength: int)
  {
    identical || lineLength < 1
  }

  // -----------------------------------------------------------------------
  // The message header
  // -----------------------------------------------------------------------

  /** The trimmed user message, a blank line if it is not empty, then the summary line. */
  function Header(message: string, actualType: string, expectedType: string): string
  {
    Lead(Trim(message)) + Summary(actualType, expectedType)
  }

  /** The text before the summary line: the trimmed message and a blank line, or nothing. */
  function Lead(text: string): string
  {
    if text == "" then "" else text + EOL + EOL
  }

  /** What the output buffer holds after the header, the two labels and the two dumps are written. */
  function Buffered(header: string, values: Values): string
  {
    header + EOL
      + EOL + "EXPECTED: " + EOL + values.expectedDump
      + EOL + "ACTUAL: " + EOL + values.actualDump
  }

  // -----------------------------------------------------------------------
  // Trace cleanup
  // -----------------------------------------------------------------------

  /** A `:`-separated segment that carries no information: empty, or only digits. */
  predicate IsNoise(segment: string)
  {
    segment == "" || IsDigits(segment)
  }

  /** The number of noise segments at the front of `segments`. */
  function LeadingNoise(segments: seq<string>): (n: nat)
    ensures n <= |segments|
    ensures forall i :: 0 <= i < n ==> IsNoise(segments[i])
    ensures n < |segments| ==> !IsNoise(segments[n])
  {
    if segments == [] || !IsNoise(segments[0]) then 0 else 1 + LeadingNoise(segments[1..])
  }

  /** The segments that survive: noise dropped from the front until a survivor, which is left-trimmed. */
  function KeptSegments(segments: seq<string>): seq<string>
  {
    if segments == [] then []
    else if IsNoise(segments[0]) then KeptSegments(segments[1..])
    else [LTrim(segments[0])] + segments[1..]
  }

  /**
   * What survives is decided by the leading noise: nothing when every
   * segment is noise, otherwise the first other segment left-trimmed and
   * every later segment verbatim, in order.
   */
  lemma {:induction false} KeptAfterNoise(segments: seq<string>)
    ensures var n := LeadingNoise(segments);
      KeptSegments(segments) == if n == |segments| then [] else [LTrim(segments[n])] + segments[n + 1..]
  {
    if segments != [] && IsNoise(segments[0]) {
      var tail := segments[1..];
      KeptAfterNoise(tail);
      var m := LeadingNoise(tail);
      if m < |tail| {
        assert tail[m] == segments[m + 1] && tail[m + 1..] == segments[m + 2..];
      }
    }
  }

  /** Noise up to `k` and a survivor at `k` (if any): the kept segments start there. */
  lemma {:induction false} KeptFrom(segments: seq<string>, k: nat)
    requires k <= |segments|
    requires forall j :: 0 <= j < k ==> IsNoise(segments[j])
    requires k < |segments| ==> !IsNoise(segments[k])
    ensures KeptSegments(segments) == if k == |segments| then [] else [LTrim(segments[k])] + segments[k + 1..]
  {
    if k > 0 {
      var tail := segments[1..];
      KeptFrom(tail, k - 1);
      if k < |segments| {
        assert tail[k - 1] == segments[k] && tail[k..] == segments[k + 1..];
      }
    }
  }

  /** The cleanup of one fragment that followed the marker. */
  function CleanFragment(fragment: string): string
  {
    Join(":", KeptSegments(Explode(":", fragment)))
  }

  /** The fragments of the text: the first kept, every later one cleaned. */
  function CleanPieces(pieces: seq<string>): seq<string>
    requires |pieces| >= 1
  {
    [pieces[0]] + CleanAll(pieces[1..])
  }

  /** Every fragment, cleaned, in order. */
  function CleanAll(fragments: seq<string>): (r: seq<string>)
    ensures |r| == |fragments|
  {
    if fragments == [] then []
    else CleanAll(fragments[..|fragments| - 1]) + [CleanFragment(fragments[|fragments| - 1])]
  }

  /** The whole cleanup: split on the marker, clean the fragments after it, join with nothing. */
  function CleanTrace(marker: string, text: string): string
    requires |marker| > 0
  {
    Concat(CleanPieces(Explode(marker, text)))
  }

  /** The cleanup: split on the marker, clean the fragments after the first, join with nothing. */
  method CleanTraces(marker: string, text: string) returns (r: string)
    requires |marker| > 0
    ensures r == CleanTrace(marker, text)
  {
    var pieces := Explode(marker, text);
    pieces := CleanFragments(pieces);
    r := Concat(pieces);
  }

  /** The loop over the fragments: rewrites those after the first one in place. */
  method CleanFragments(original: seq<string>) returns (pieces: seq<string>)
    requires |original| >= 1
    ensures pieces == CleanPieces(original)
  {
    pieces := original;
    ghost var done: seq<string> := [];
    assert pieces == [original[0]] + done + original[1..];
    var x := 1;
    while x < |pieces|
      invariant 1 <= x <= |original| == |pieces|
      invariant done == CleanAll(original[1..x])
      invariant pieces == [original[0]] + done + original[x..]
    {
      var cleaned := CleanOneFragment(pieces[x]);
      ReplaceStep(original[0], done, original[x..], cleaned);
      assert original[x..][1..] == original[x + 1..];
      CleanAllStep(original, x);
      pieces := pieces[x := cleaned];
      done := done + [cleaned];
      x := x + 1;
    }
    assert original[x..] == [] && original[1..x] == original[1..];
  }

  /** One more fragment cleaned: its cleanup is added at the end. */
  lemma CleanAllStep(original: seq<string>, x: nat)
    requires 1 <= x < |original|
    ensures CleanAll(original[1..x + 1]) == CleanAll(original[1..x]) + [CleanFragment(original[x])]
  {
    assert original[1..x + 1] == original[1..x] + [original[x]];
    CleanAllSnoc(original[1..x], original[x]);
  }

  /** Replacing the first not-yet-cleaned fragment moves it to the cleaned ones. */
  lemma ReplaceStep(first: string, done: seq<string>, back: seq<string>, cleaned: string)
    requires |back| >= 1
    ensures ([first] + done + back)[|done| + 1 := cleaned] == [first] + (done + [cleaned]) + back[1..]
  {
    assert back == [back[0]] + back[1..];
    UpdateAt([first] + done, back[0], back[1..], cleaned);
    PiecesAssoc([first], done, [cleaned]);
  }

  lemma PiecesAssoc(a: seq<string>, b: seq<string>, c: seq<string>)
    ensures a + (b + c) == (a + b) + c
  {
  }

  /** Cleaning one more fragment adds its cleanup at the end. */
  lemma CleanAllSnoc(fragments: seq<string>, f: string)
    ensures CleanAll(fragments + [f]) == CleanAll(fragments) + [CleanFragment(f)]
  {
    assert (fragments + [f])[..|fragments|] == fragments;
  }

  /** Replacing the element just after `front`. */
  lemma UpdateAt(front: seq<string>, x: string, back: seq<string>, y: string)
    ensures |front + ([x] + back)| > |front|
    ensures (front + ([x] + back))[|front|] == x
    ensures (front + ([x] + back))[|front| := y] == front + ([y] + back)
    ensures front + ([y] + back) == (front + [y]) + back
  {
  }

  /** The inner loop: unset noise segments from the front until one survives, left-trim it, stop. */
  method CleanOneFragment(fragment: string) returns (r: string)
    ensures r == CleanFragment(fragment)
  {
    var segments := Explode(":", fragment);
    var kept := segments;
    var k := 0;
    while k < |segments|
      invariant 0 <= k <= |segments|
      invariant kept == segments[k..]
      invariant forall j :: 0 <= j < k ==> IsNoise(segments[j])
    {
      if !IsNoise(segments[k]) {
        kept := [LTrim(segments[k])] + kept[1..];
        break;
      }
      kept := kept[1..];
      k := k + 1;
    }
    KeptFrom(segments, k);
    r := Join(":", kept);
  }

  // -----------------------------------------------------------------------
  // Box rendering
  // -----------------------------------------------------------------------

  /** The chunks of one line with their prefixes: a space for the first, `> ` for each continuation. */
  function Marked(chunks: seq<string>): seq<string>
  {
    seq(|chunks|, i requires 0 <= i < |chunks| => (if i == 0 then " " else "> ") + chunks[i])
  }

  /** How one line of the message is rendered inside the box. */
  function Rendered(line: string, lineLength: int): string
  {
    var width := lineLength - 3;
    if width < 1 then "" else Join(EOL, Marked(Chunks(line, width)))
  }

  /** The rendering of one line: wrap it, then prefix its chunks in place. */
  method RenderLine(line: string, lineLength: int) returns (r: string)
    ensures r == Rendered(line, lineLength)
  {
    var width := lineLength - 3;
    if width < 1 {
      return "";
    }
    var chunks := Chunks(line, width);
    if |chunks| == 0 {
      return "";
    }
    ghost var original := chunks;
    chunks := chunks[0 := " " + chunks[0]];
    var x := 1;
    while x < |chunks|
      invariant 1 <= x <= |chunks| == |original|
      invariant forall j :: 0 <= j < x ==> chunks[j] == Marked(original)[j]
      invariant forall j :: x <= j < |chunks| ==> chunks[j] == original[j]
    {
      chunks := chunks[x := "> " + chunks[x]];
      x := x + 1;
    }
    assert chunks == Marked(original);
    r := Join(EOL, chunks);
  }

  /** Every line of the message, rendered. */
  function RenderAll(lines: seq<string>, lineLength: int): seq<string>
  {
    seq(|lines|, i requires 0 <= i < |lines| => Rendered(lines[i], lineLength))
  }

  /** The `array_map` over the lines of the message. */
  method RenderLines(lines: seq<string>, lineLength: int) returns (rendered: seq<string>)
    ensures rendered == RenderAll(lines, lineLength)
  {
    rendered := [];
    for i := 0 to |lines|
      invariant |rendered| == i
      invariant forall j :: 0 <= j < i ==> rendered[j] == Rendered(lines[j], lineLength)
    {
      var line := RenderLine(lines[i], lineLength);
      rendered := rendered + [line];
    }
  }

  /** The horizontal rule above and below the box. */
  function Rule(lineLength: int): string
    requires lineLength >= 1
  {
    Repeat('#', lineLength - 1)
  }

  /** The template filled in: a rule, the rendered lines each led by `#`, a rule. */
  function Box(lineLength: int, rendered: seq<string>): string
    requires lineLength >= 1
  {
    Rule(lineLength) + EOL + "#" + Join(EOL + "#", rendered) + EOL + Rule(lineLength)
  }

  /** The boxed diagnostic handed to `assertTrue` on the slow path. */
  function Diagnostic(values: Values, marker: string, message: string, lineLength: int): string
    requires |marker| > 0 && lineLength >= 1
  {
    var header := Header(message, values.actualType, values.expectedType);
    var text := CleanTrace(marker, Buffered(header, values));
    Box(lineLength, RenderAll(SplitLines(Trim(text)), lineLength))
  }

  /** The one call `assertExactEquals` makes to `assertTrue`. */
  function Reported(values: Values, marker: string, message: string, lineLength: int): Assertion
    requires |marker| > 0
  {
    if FastPath(values.identical, lineLength) then Assertion(values.identical, message)
    else Assertion(values.identical, Diagnostic(values, marker, message, lineLength))
  }

  // -----------------------------------------------------------------------
  // Properties of the header
  // -----------------------------------------------------------------------

  /** The header keeps the user's message: two headers agree only if the trimmed messages do. */
  lemma HeaderKeepsMessage(m1: string, m2: string, actualType: string, expectedType: string)
    requires Header(m1, actualType, expectedType) == Header(m2, actualType, expectedType)
    ensures Trim(m1) == Trim(m2)
  {
    SameLead(Trim(m1), Trim(m2), Summary(actualType, expectedType));
  }

  /** Equal texts ending in the same summary line have the same message in front. */
  lemma SameLead(t1: string, t2: string, summary: string)
    requires Lead(t1) + summary == Lead(t2) + summary
    ensures t1 == t2
  {
    CancelBack(Lead(t1), Lead(t2), summary);
    if t1 != "" && t2 != "" {
      assert t1 == Lead(t1)[..|t1|] && t2 == Lead(t2)[..|t2|];
    }
  }

  // -----------------------------------------------------------------------
  // Properties of the trace cleanup
  // -----------------------------------------------------------------------

  /**
   * The text before the first occurrence of the marker comes through the
   * cleanup untouched; a text without the marker comes through whole.
   */
  lemma CleanTraceKeepsHead(marker: string, text: string)
    requires |marker| > 0
    ensures text[..FindFrom(marker, text, 0)] <= CleanTrace(marker, text)
    ensures Free(marker, text) ==> CleanTrace(marker, text) == text
  {
    var pieces := Explode(marker, text);
    var k := FindFrom(marker, text, 0);
    assert pieces[0] == text[..k];
    assert CleanPieces(pieces)[0] == pieces[0];
    assert CleanTrace(marker, text) == pieces[0] + Concat(CleanPieces(pieces)[1..]);
    if Free(marker, text) {
      assert |pieces| == 1 && k == |text|;
      assert CleanPieces(pieces) == [text];
    }
  }

  /**
   * `rest` is what is left of `text` once a prefix made only of digits,
   * colons and whitespace is cut off.
   */
  predicate NoiseCut(text: string, rest: string)
  {
    |rest| <= |text| && rest == text[|text| - |rest|..]
    && forall i :: 0 <= i < |text| - |rest| ==> IsNoiseChar(text[i])
  }

  /** A character the cleanup may remove from the front of a fragment. */
  predicate IsNoiseChar(c: char)
  {
    IsDigit(c) || c == ':' || IsTrimmable(c)
  }

  /** A run of noise segments joined with `:` can be cut away whole. */
  lemma {:induction false} NoiseChars(segments: seq<string>)
    requires forall i :: 0 <= i < |segments| ==> IsNoise(segments[i])
    ensures NoiseCut(Join(":", segments), "")
  {
    if |segments| > 1 {
      NoiseChars(segments[1..]);
      var t := Join(":", segments[1..]);
      JoinCons(":", segments);
      var f := Join(":", segments);
      forall i | 0 <= i < |f| ensures IsNoiseChar(f[i]) {
        if i > |segments[0]| {
          assert f[i] == t[i - |segments[0]| - 1];
        }
      }
    }
  }

  /** Two cuts in a row are one cut. */
  lemma NoiseCutTrans(a: string, b: string, c: string)
    requires NoiseCut(a, b) && NoiseCut(b, c)
    ensures NoiseCut(a, c)
  {
    forall i | 0 <= i < |a| - |c|
      ensures IsNoiseChar(a[i])
    {
      if i >= |a| - |b| {
        assert a[i] == b[i - (|a| - |b|)];
      }
    }
  }

  /**
   * Cleaning a fragment only removes a leading run of digits, colons and
   * whitespace; a fragment made only of noise segments is cleaned away.
   */
  lemma CleanFragmentDropsPrefix(fragment: string)
    ensures NoiseCut(fragment, CleanFragment(fragment))
    ensures var segments := Explode(":", fragment);
      LeadingNoise(segments) == |segments| ==> CleanFragment(fragment) == ""
  {
    var segments := Explode(":", fragment);
    KeptIsSuffix(segments);
    KeptAfterNoise(segments);
  }

  /** The kept segments, joined, are what is left of the joined segments once a noisy prefix is cut. */
  lemma KeptIsSuffix(segments: seq<string>)
    ensures NoiseCut(Join(":", segments), Join(":", KeptSegments(segments)))
  {
    KeptAfterNoise(segments);
    var n := LeadingNoise(segments);
    if n == |segments| {
      NoiseChars(segments);
    } else {
      SurvivorCut(segments, n);
    }
  }

  /** Dropping `n` noise segments and left-trimming the next one is a cut. */
  lemma SurvivorCut(segments: seq<string>, n: nat)
    requires n < |segments|
    requires forall i :: 0 <= i < n ==> IsNoise(segments[i])
    ensures NoiseCut(Join(":", segments), Join(":", [LTrim(segments[n])] + segments[n + 1..]))
  {
    var rest := segments[n..];
    var kept := [LTrim(segments[n])] + segments[n + 1..];
    assert NoiseCut(Join(":", rest), Join(":", kept)) by {
      assert rest[0] == segments[n] && rest[1..] == segments[n + 1..];
      TrimmedHeadCut(rest);
    }
    NoiseFrontCut(segments, n);
    NoiseCutTrans(Join(":", segments), Join(":", rest), Join(":", kept));
  }

  /** Dropping `n` noise segments, with their colons, is a cut. */
  lemma {:induction false} NoiseFrontCut(segments: seq<string>, n: nat)
    requires n < |segments|
    requires forall i :: 0 <= i < n ==> IsNoise(segments[i])
    ensures NoiseCut(Join(":", segments), Join(":", segments[n..]))
  {
    if n == 0 {
      assert segments[n..] == segments;
      PrefixCut("", Join(":", segments));
    } else {
      var tail := segments[1..];
      assert NoiseCut(Join(":", tail), Join(":", tail[n - 1..])) by {
        assert forall i :: 0 <= i < n - 1 ==> tail[i] == segments[i + 1];
        NoiseFrontCut(tail, n - 1);
      }
      assert tail[n - 1..] == segments[n..];
      OneNoiseCut(segments);
      NoiseCutTrans(Join(":", segments), Join(":", tail), Join(":", segments[n..]));
    }
  }

  /** Dropping one noise segment and its colon is a cut. */
  lemma OneNoiseCut(segments: seq<string>)
    requires |segments| > 1 && IsNoise(segments[0])
    ensures NoiseCut(Join(":", segments), Join(":", segments[1..]))
  {
    var front := segments[0] + ":";
    assert forall i :: 0 <= i < |front| ==> IsNoiseChar(front[i]) by {
      forall i | 0 <= i < |front| ensures IsNoiseChar(front[i]) {
        if i < |segments[0]| {
          assert IsDigit(segments[0][i]);
        }
      }
    }
    JoinCons(":", segments);
    PrefixCut(front, Join(":", segments[1..]));
  }

  /** Left-trimming the first segment cuts only whitespace. */
  lemma TrimmedHeadCut(rest: seq<string>)
    requires |rest| >= 1
    ensures NoiseCut(Join(":", rest), Join(":", [LTrim(rest[0])] + rest[1..]))
  {
    var head := rest[0];
    var trimmed := LTrim(head);
    var cut := head[..|head| - |trimmed|];
    assert head == cut + trimmed;
    JoinHeadSuffix(":", rest, cut, trimmed);
    PrefixCut(cut, Join(":", [trimmed] + rest[1..]));
  }

  /** Cutting a prefix made only of noise characters is a cut. */
  lemma PrefixCut(prefix: string, rest: string)
    requires forall i :: 0 <= i < |prefix| ==> IsNoiseChar(prefix[i])
    ensures NoiseCut(prefix + rest, rest)
  {
    var text := prefix + rest;
    assert |text| - |rest| == |prefix|;
    assert forall i :: 0 <= i < |prefix| ==> text[i] == prefix[i];
  }

  /** A colon, digits and a colon in front of `rest` become two segments of their own. */
  lemma ExplodeLocation(line: string, rest: string)
    requires IsDigits(line)
    ensures Explode(":", ":" + line + ":" + rest) == ["", line] + Explode(":", rest)
  {
    assert ':' !in line by {
      forall i | 0 <= i < |line| ensures line[i] != ':' {
        assert IsDigit(line[i]);
      }
    }
    ExplodeLeadingField(':', line, rest);
  }

  /**
   * The trace the cleanup exists for: after the marker come a colon, a line
   * number and a colon; the cleanup removes them and the whitespace after
   * them, and keeps the rest.
   */
  lemma CleanFragmentStripsLocation(line: string, rest: string)
    requires IsDigits(line)
    requires !IsNoise(Explode(":", rest)[0])
    ensures CleanFragment(":" + line + ":" + rest) == LTrim(rest)
  {
    var tail := Explode(":", rest);
    ExplodeLocation(line, rest);
    var segments := ["", line] + tail;
    assert segments[1..] == [line] + tail && ([line] + tail)[1..] == tail;
    assert LeadingNoise(segments) == 2;
    KeptAfterNoise(segments);
    assert segments[3..] == tail[1..];
    assert KeptSegments(segments) == [LTrim(tail[0])] + tail[1..];
    JoinLTrimHead(":", tail);
  }

  /**
   * A whole trace: text before the marker is kept, the marker goes, and so
   * do the line number and colons after it and the whitespace after those.
   */
  lemma CleanTraceStripsLocation(marker: string, head: string, line: string, rest: string)
    requires |marker| > 0
    requires forall j :: 0 <= j < |head| ==> !MatchAt(marker, head + marker + (":" + line + ":" + rest), j)
    requires Free(marker, ":" + line + ":" + rest)
    requires IsDigits(line) && !IsNoise(Explode(":", rest)[0])
    ensures CleanTrace(marker, head + marker + (":" + line + ":" + rest)) == head + LTrim(rest)
  {
    var fragment := ":" + line + ":" + rest;
    ExplodeOnce(marker, head, fragment);
    assert CleanPieces([head, fragment]) == [head, CleanFragment(fragment)];
    var cleaned := CleanFragment(fragment);
    assert [head, cleaned][1..] == [cleaned] && [cleaned][1..] == [];
    assert Concat([cleaned]) == cleaned + "" == cleaned;
    CleanFragmentStripsLocation(line, rest);
  }

  // -----------------------------------------------------------------------
  // The test case that uses the helper
  // -----------------------------------------------------------------------

  /** A test case: the host's `assertTrue` is modelled by the log of its calls. */
  class TestCase {
    /** Every call made to `assertTrue`, oldest first. */
    var assertions: seq<Assertion>

    constructor ()
      ensures assertions == []
    {
      assertions := [];
    }

    /** The host's assertion primitive. */
    method AssertTrue(condition: bool, message: string)
      modifies this
      ensures assertions == old(assertions) + [Assertion(condition, message)]
    {
      assertions := assertions + [Assertion(condition, message)];
    }

    /** `assertExactEquals($expected, $actual, $message, $lineLength)`. */
    method AssertExactEquals(values: Values, marker: string, message: string, lineLength: int)
      returns (equal: bool)
      requires |marker| > 0
      modifies this
      ensures equal == values.identical
      ensures assertions == old(assertions) + [Reported(values, marker, message, lineLength)]
    {
      equal := values.identical;
      if equal || lineLength < 1 {
        AssertTrue(equal, message);
        return;
      }

      var text := Trim(message);
      if text != "" {
        text := text + EOL + EOL;
      }
      text := text + Summary(values.actualType, values.expectedType);
      assert text == Header(message, values.actualType, values.expectedType);

      // what the output buffer collects
      var buffer := text + EOL;
      buffer := buffer + EOL + "EXPECTED: " + EOL;
      buffer := buffer + values.expectedDump;
      buffer := buffer + EOL + "ACTUAL: " + EOL;
      buffer := buffer + values.actualDump;
      assert buffer == Buffered(Header(message, values.actualType, values.expectedType), values);

      text := CleanTraces(marker, buffer);

      var rendered := RenderLines(SplitLines(Trim(text)), lineLength);
      text := Box(lineLength, rendered);
      AssertTrue(equal, text);
    }
  }
}

=== FILE: box_layout.dfy ===
/**
 * The layout of the boxed diagnostic, read row by row.
 *
 * `LineRows` says independently of the rendering pipeline which rows one
 * line of the message occupies: a first row led by `# ` (or a bare `#` for
 * an empty line) and one `> ` row per continuation chunk. The lemmas show
 * that the box is exactly a rule, those rows and a rule; that from
 * `lineLength` 2 up no row is wider than `lineLength - 1`; and that `Unbox`
 * reads the message lines back from the rows.
 */
module BoxLayout {
  import opened Php
  import opened AssertExactEquals

  /** The rows one line of the message occupies in the box, its `#` border included. */
  function LineRows(line: string, lineLength: int): (rows: seq<string>)
    ensures |rows| >= 1
  {
    var width := lineLength - 3;
    if width < 1 then ["#"]
    else
      var chunks := Chunks(line, width);
      if chunks == [] then ["#"]
      else ["# " + chunks[0]] + Continuations(chunks[1..])
  }

  /** Continuation chunks, each as a row of its own led by `> `. */
  function Continuations(chunks: seq<string>): (rows: seq<string>)
    ensures |rows| == |chunks|
  {
    seq(|chunks|, i requires 0 <= i < |chunks| => "> " + chunks[i])
  }

  /** The rows of all the lines, in order. */
  function BodyRows(lines: seq<string>, lineLength: int): (rows: seq<string>)
    ensures |rows| >= |lines|
  {
    if lines == [] then [] else LineRows(lines[0], lineLength) + BodyRows(lines[1..], lineLength)
  }

  // -----------------------------------------------------------------------
  // Reading the rows back
  // -----------------------------------------------------------------------

  /** A row that carries on the line above it. */
  predicate IsContinuation(row: string)
  {
    |row| >= 2 && row[0] == '>' && row[1] == ' '
  }

  /** The number of continuation rows at the front of `rows`. */
  function ContinuedCount(rows: seq<string>): (n: nat)
    ensures n <= |rows|
  {
    if rows != [] && IsContinuation(rows[0]) then 1 + ContinuedCount(rows[1..]) else 0
  }

  /** The text the continuation rows at the front of `rows` carry, prefixes removed. */
  function ContinuedText(rows: seq<string>): string
  {
    if rows != [] && IsContinuation(rows[0]) then rows[0][2..] + ContinuedText(rows[1..]) else ""
  }

  /** The text of a first row: what follows `# `, or nothing for a bare `#`. */
  function RowText(row: string): string
  {
    if |row| >= 2 then row[2..] else ""
  }

  /** The lines of the message, read back from the rows between the two rules. */
  function Unbox(rows: seq<string>): seq<string>
    decreases |rows|
  {
    if rows == [] then []
    else
      var rest := rows[1..];
      [RowText(rows[0]) + ContinuedText(rest)] + Unbox(rest[ContinuedCount(rest)..])
  }

  // -----------------------------------------------------------------------
  // The box is a rule, the body rows and a rule
  // -----------------------------------------------------------------------

  /** One line, led by `#`, is its rows joined with line breaks. */
  lemma LineRowsRendered(line: string, lineLength: int)
    ensures "#" + Rendered(line, lineLength) == Join(EOL, LineRows(line, lineLength))
  {
    var width := lineLength - 3;
    if width >= 1 {
      var chunks := Chunks(line, width);
      if chunks != [] {
        var marked := Marked(chunks);
        JoinPrepend("#", EOL, marked);
        assert "#" + marked[0] == "# " + chunks[0];
        assert marked[1..] == Continuations(chunks[1..]);
      }
    }
  }

  /** The rendered lines, joined by the template's `EOL . '#'` and led by its `#`, are the body rows. */
  lemma {:induction false} BodyRowsRendered(lines: seq<string>, lineLength: int)
    requires |lines| >= 1
    ensures "#" + Join(EOL + "#", RenderAll(lines, lineLength)) == Join(EOL, BodyRows(lines, lineLength))
  {
    var rendered := RenderAll(lines, lineLength);
    var first := LineRows(lines[0], lineLength);
    LineRowsRendered(lines[0], lineLength);
    if |lines| == 1 {
      assert rendered == [Rendered(lines[0], lineLength)];
      assert lines[1..] == [];
      assert Join(EOL + "#", rendered) == rendered[0];
      assert BodyRows(lines, lineLength) == first + [] == first;
    } else {
      var more := BodyRows(lines[1..], lineLength);
      assert rendered[1..] == RenderAll(lines[1..], lineLength);
      BodyRowsRendered(lines[1..], lineLength);
      JoinCons(EOL + "#", rendered);
      JoinAppend(EOL, first, more);
      Regroup("#", rendered[0], EOL, Join(EOL + "#", rendered[1..]));
    }
  }

  /** Moving a leading `h` into the tail of a `sep + h` join. */
  lemma Regroup(h: string, a: string, sep: string, t: string)
    ensures h + (a + ((sep + h) + t)) == (h + a) + sep + (h + t)
  {
  }

  /** The template's pieces, regrouped around the `#` in front of the body. */
  lemma RegroupBox(rule: string, sep: string, h: string, body: string)
    ensures rule + sep + h + body + sep + rule == (rule + sep + (h + body)) + sep + rule
  {
  }

  /** The whole box, with the two rules, is its rows joined with line breaks. */
  lemma BoxRows(lines: seq<string>, lineLength: int)
    requires |lines| >= 1 && lineLength >= 1
    ensures Box(lineLength, RenderAll(lines, lineLength))
         == Join(EOL, [Rule(lineLength)] + BodyRows(lines, lineLength) + [Rule(lineLength)])
  {
    var rule := Rule(lineLength);
    var body := BodyRows(lines, lineLength);
    var joined := Join(EOL + "#", RenderAll(lines, lineLength));
    assert Box(lineLength, RenderAll(lines, lineLength)) == rule + EOL + "#" + joined + EOL + rule;
    RegroupBox(rule, EOL, "#", joined);
    BodyRowsRendered(lines, lineLength);
    JoinAppend(EOL, [rule], body);
    JoinAppend(EOL, [rule] + body, [rule]);
  }

  // -----------------------------------------------------------------------
  // Shape of the rows
  // -----------------------------------------------------------------------

  /** A row that holds no line feed and is at most `lineLength - 1` wide. */
  predicate RowFits(row: string, lineLength: int)
  {
    '\n' !in row && |row| <= lineLength - 1
  }

  /** Every row fits. */
  predicate AllFit(rows: seq<string>, lineLength: int)
  {
    forall i :: 0 <= i < |rows| ==> RowFits(rows[i], lineLength)
  }

  lemma AllFitAppend(a: seq<string>, b: seq<string>, lineLength: int)
    requires AllFit(a, lineLength) && AllFit(b, lineLength)
    ensures AllFit(a + b, lineLength)
  {
    forall i | 0 <= i < |a + b| ensures RowFits((a + b)[i], lineLength) {
      if i >= |a| {
        assert (a + b)[i] == b[i - |a|];
      }
    }
  }

  /** The rule is a row that fits. */
  lemma RuleFits(lineLength: int)
    requires lineLength >= 1
    ensures AllFit([Rule(lineLength)], lineLength)
  {
    var rule := Rule(lineLength);
    assert forall i :: 0 <= i < |rule| ==> rule[i] != '\n';
  }

  /** A two-character prefix in front of a chunk of at most `width` characters. */
  lemma PrefixedChunkFits(prefix: string, chunk: string, lineLength: int)
    requires |prefix| == 2 && '\n' !in prefix && '\n' !in chunk && |chunk| <= lineLength - 3
    ensures RowFits(prefix + chunk, lineLength)
  {
    assert forall c :: c in prefix + chunk ==> c in prefix || c in chunk;
  }

  /** A chunk of a line without line breaks has none either. */
  lemma ChunkNoLf(line: string, width: nat, i: nat)
    requires width >= 1 && NoBreak(line) && i < |Chunks(line, width)|
    ensures '\n' !in Chunks(line, width)[i]
  {
    if '\n' in Chunks(line, width)[i] {
      ConcatContains(Chunks(line, width), i, '\n');
    }
  }

  /**
   * The rows of one line: the first starts with `#` and so is not a
   * continuation, every later one is, and every row fits.
   */
  lemma LineRowsShape(line: string, lineLength: int)
    requires NoBreak(line) && lineLength >= 2
    ensures var rows := LineRows(line, lineLength);
      && !IsContinuation(rows[0]) && rows[0][0] == '#'
      && (forall i :: 1 <= i < |rows| ==> IsContinuation(rows[i]))
      && AllFit(rows, lineLength)
  {
    var width := lineLength - 3;
    if width >= 1 {
      var chunks := Chunks(line, width);
      if chunks != [] {
        forall i | 0 <= i < |chunks| ensures '\n' !in chunks[i] {
          ChunkNoLf(line, width, i);
        }
        var rows := LineRows(line, lineLength);
        var more := Continuations(chunks[1..]);
        assert rows == ["# " + chunks[0]] + more;
        ContinuationsShape(chunks[1..], lineLength);
        assert AllFit(rows, lineLength) by {
          PrefixedChunkFits("# ", chunks[0], lineLength);
          AllFitAppend(["# " + chunks[0]], more, lineLength);
        }
        assert forall i :: 1 <= i < |rows| ==> IsContinuation(rows[i]) by {
          forall i | 1 <= i < |rows| ensures IsContinuation(rows[i]) {
            assert rows[i] == more[i - 1];
          }
        }
      }
    }
  }

  /** Continuation rows of chunks that fit are continuations that fit. */
  lemma ContinuationsShape(chunks: seq<string>, lineLength: int)
    requires forall i :: 0 <= i < |chunks| ==> '\n' !in chunks[i] && |chunks[i]| <= lineLength - 3
    ensures var rows := Continuations(chunks);
      AllFit(rows, lineLength) && forall i :: 0 <= i < |rows| ==> IsContinuation(rows[i])
  {
    forall i | 0 <= i < |chunks| ensures IsContinuation(Continuations(chunks)[i]) && RowFits(Continuations(chunks)[i], lineLength) {
      PrefixedChunkFits("> ", chunks[i], lineLength);
    }
  }

  /** The body rows start with a first row, and every one of them fits. */
  lemma {:induction false} BodyRowsShape(lines: seq<string>, lineLength: int)
    requires lineLength >= 2
    requires forall i :: 0 <= i < |lines| ==> NoBreak(lines[i])
    ensures var rows := BodyRows(lines, lineLength);
      && (rows == [] || !IsContinuation(rows[0]))
      && AllFit(rows, lineLength)
  {
    if lines != [] {
      LineRowsShape(lines[0], lineLength);
      BodyRowsShape(lines[1..], lineLength);
      AllFitAppend(LineRows(lines[0], lineLength), BodyRows(lines[1..], lineLength), lineLength);
    }
  }

  /** No body row holds a line feed, at any width the box is drawn at. */
  lemma BodyRowsNoLf(lines: seq<string>, lineLength: int)
    requires lineLength >= 1
    requires forall i :: 0 <= i < |lines| ==> NoBreak(lines[i])
    ensures var rows := BodyRows(lines, lineLength);
      forall i :: 0 <= i < |rows| ==> '\n' !in rows[i]
  {
    var rows := BodyRows(lines, lineLength);
    if lineLength >= 2 {
      BodyRowsShape(lines, lineLength);
      forall i | 0 <= i < |rows| ensures '\n' !in rows[i] {
        assert RowFits(rows[i], lineLength);
      }
    } else {
      NarrowBodyRows(lines, lineLength);
    }
  }

  /**
   * The rows of the box are the rule, the body rows and the rule, split
   * back apart at the line feeds; from width 2 up each of them fits.
   */
  lemma BoxExplode(lines: seq<string>, lineLength: int)
    requires |lines| >= 1 && lineLength >= 1
    requires forall i :: 0 <= i < |lines| ==> NoBreak(lines[i])
    ensures Explode(EOL, Box(lineLength, RenderAll(lines, lineLength)))
         == [Rule(lineLength)] + BodyRows(lines, lineLength) + [Rule(lineLength)]
    ensures lineLength >= 2 ==>
      AllFit([Rule(lineLength)] + BodyRows(lines, lineLength) + [Rule(lineLength)], lineLength)
  {
    var rule := Rule(lineLength);
    var body := BodyRows(lines, lineLength);
    var rows := [rule] + body + [rule];
    BoxRows(lines, lineLength);
    RuleFits(lineLength);
    if lineLength >= 2 {
      assert AllFit(rows, lineLength) by {
        BodyRowsShape(lines, lineLength);
        AllFitAppend([rule], body, lineLength);
        AllFitAppend([rule] + body, [rule], lineLength);
      }
    }
    assert forall i :: 0 <= i < |rows| ==> '\n' !in rows[i] by {
      BodyRowsNoLf(lines, lineLength);
      assert RowFits(rule, lineLength);
      forall i | 0 <= i < |rows| ensures '\n' !in rows[i] {
        if 0 < i < |rows| - 1 {
          assert rows[i] == body[i - 1];
        }
      }
    }
    ExplodeJoin('\n', rows);
  }

  // -----------------------------------------------------------------------
  // Reading back
  // -----------------------------------------------------------------------

  /** The continuation rows of a line are read back as its later chunks, up to the next first row. */
  lemma {:induction false} ContinuationsRead(chunks: seq<string>, more: seq<string>)
    requires more == [] || !IsContinuation(more[0])
    ensures ContinuedCount(Continuations(chunks) + more) == |chunks|
    ensures ContinuedText(Continuations(chunks) + more) == Concat(chunks)
  {
    var rows := Continuations(chunks) + more;
    if chunks != [] {
      assert rows[0] == "> " + chunks[0];
      assert rows[0][2..] == chunks[0];
      assert rows[1..] == Continuations(chunks[1..]) + more;
      ContinuationsRead(chunks[1..], more);
    } else {
      assert rows == more;
    }
  }

  /** Reading the rows of a line followed by other lines' rows gives the line back, then the rest. */
  lemma LineRowsRead(line: string, lineLength: int, more: seq<string>)
    requires lineLength >= 4
    requires more == [] || !IsContinuation(more[0])
    ensures Unbox(LineRows(line, lineLength) + more) == [line] + Unbox(more)
  {
    var chunks := Chunks(line, lineLength - 3);
    if chunks == [] {
      var rows := ["#"] + more;
      assert rows[1..] == more;
      assert ContinuedCount(more) == 0;
    } else {
      ChunkRowsRead(chunks, more);
    }
  }

  /** The rows of a non-empty list of chunks read back as the chunks concatenated. */
  lemma ChunkRowsRead(chunks: seq<string>, more: seq<string>)
    requires chunks != []
    requires more == [] || !IsContinuation(more[0])
    ensures Unbox((["# " + chunks[0]] + Continuations(chunks[1..])) + more) == [Concat(chunks)] + Unbox(more)
  {
    var rows := (["# " + chunks[0]] + Continuations(chunks[1..])) + more;
    assert rows[1..] == Continuations(chunks[1..]) + more;
    ContinuationsRead(chunks[1..], more);
    assert RowText(rows[0]) == chunks[0];
    assert rows[1..][|chunks| - 1..] == more;
  }

  /** For a box at least four columns wide, the rows give back every line of the message. */
  lemma {:induction false} UnboxBodyRows(lines: seq<string>, lineLength: int)
    requires lineLength >= 4
    requires forall i :: 0 <= i < |lines| ==> NoBreak(lines[i])
    ensures Unbox(BodyRows(lines, lineLength)) == lines
  {
    if lines != [] {
      BodyRowsShape(lines[1..], lineLength);
      LineRowsRead(lines[0], lineLength, BodyRows(lines[1..], lineLength));
      UnboxBodyRows(lines[1..], lineLength);
    }
  }

  // -----------------------------------------------------------------------
  // The diagnostic
  // -----------------------------------------------------------------------

  /**
   * The box around any text, cut at its line feeds: a rule first and last,
   * every row fits, and between the rules rows that read back as the text
   * with its line breaks made line feeds.
   */
  lemma BoxedTextRows(text: string, lineLength: int)
    requires lineLength >= 1
    ensures var rows := Explode(EOL, Box(lineLength, RenderAll(SplitLines(text), lineLength)));
      && |rows| >= 3
      && rows[0] == Rule(lineLength) && rows[|rows| - 1] == Rule(lineLength)
      && (forall i :: 0 <= i < |rows| ==> |rows[i]| <= lineLength)
      && (lineLength >= 2 ==> forall i :: 0 <= i < |rows| ==> |rows[i]| <= lineLength - 1)
      && (lineLength >= 4 ==> Unbox(rows[1..|rows| - 1]) == SplitLines(text))
      && (lineLength >= 4 ==> Join(EOL, Unbox(rows[1..|rows| - 1])) == NormalizeBreaks(text))
      && (lineLength < 4 ==> |rows| == |SplitLines(text)| + 2 && forall i :: 0 < i < |rows| - 1 ==> rows[i] == "#")
  {
    var lines := SplitLines(text);
    var body := BodyRows(lines, lineLength);
    var rows := Explode(EOL, Box(lineLength, RenderAll(lines, lineLength)));
    BoxExplode(lines, lineLength);
    assert rows == [Rule(lineLength)] + body + [Rule(lineLength)];
    BoxWidths(lines, lineLength);
    if lineLength >= 4 {
      assert rows[1..|rows| - 1] == body;
      UnboxBodyRows(lines, lineLength);
      SplitLinesJoin(text);
    } else {
      NarrowBodyRows(lines, lineLength);
      forall i | 0 < i < |rows| - 1 ensures rows[i] == "#" {
        assert rows[i] == body[i - 1];
      }
    }
  }

  /** No row of the box is wider than `lineLength`, and from width 2 up none is wider than `lineLength - 1`. */
  lemma BoxWidths(lines: seq<string>, lineLength: int)
    requires |lines| >= 1 && lineLength >= 1
    requires forall i :: 0 <= i < |lines| ==> NoBreak(lines[i])
    ensures var rows := [Rule(lineLength)] + BodyRows(lines, lineLength) + [Rule(lineLength)];
      && (forall i :: 0 <= i < |rows| ==> |rows[i]| <= lineLength)
      && (lineLength >= 2 ==> forall i :: 0 <= i < |rows| ==> |rows[i]| <= lineLength - 1)
  {
    var body := BodyRows(lines, lineLength);
    var rows := [Rule(lineLength)] + body + [Rule(lineLength)];
    if lineLength >= 2 {
      BoxExplode(lines, lineLength);
      forall i | 0 <= i < |rows| ensures |rows[i]| <= lineLength - 1 {
        assert RowFits(rows[i], lineLength);
      }
    } else {
      NarrowBodyRows(lines, lineLength);
      forall i | 0 <= i < |rows| ensures |rows[i]| <= lineLength {
        if 0 < i < |rows| - 1 {
          assert rows[i] == body[i - 1];
        }
      }
    }
  }

  /** Below four columns there is no room for text: every line of the message is a bare `#` row. */
  lemma {:induction false} NarrowBodyRows(lines: seq<string>, lineLength: int)
    requires lineLength < 4
    ensures |BodyRows(lines, lineLength)| == |lines|
    ensures forall i :: 0 <= i < |lines| ==> BodyRows(lines, lineLength)[i] == "#"
  {
    if lines != [] {
      NarrowBodyRows(lines[1..], lineLength);
      var more := BodyRows(lines[1..], lineLength);
      assert BodyRows(lines, lineLength) == ["#"] + more;
    }
  }

  /**
   * The diagnostic, cut at its line feeds: a rule of `lineLength - 1` `#`
   * first and last, no row wider than `lineLength` (nor, from width 2 up,
   * than `lineLength - 1`), and between the rules rows that read back as
   * the lines of the cleaned message, or bare `#` rows below width 4.
   */
  lemma DiagnosticRows(values: Values, marker: string, message: string, lineLength: int)
    requires |marker| > 0 && lineLength >= 1
    ensures var text := Trim(CleanTrace(marker, Buffered(Header(message, values.actualType, values.expectedType), values)));
      var rows := Explode(EOL, Diagnostic(values, marker, message, lineLength));
      && |rows| >= 3
      && rows[0] == Rule(lineLength) && rows[|rows| - 1] == Rule(lineLength)
      && (forall i :: 0 <= i < |rows| ==> |rows[i]| <= lineLength)
      && (lineLength >= 2 ==> forall i :: 0 <= i < |rows| ==> |rows[i]| <= lineLength - 1)
      && (lineLength >= 4 ==> Unbox(rows[1..|rows| - 1]) == SplitLines(text))
      && (lineLength >= 4 ==> Join(EOL, Unbox(rows[1..|rows| - 1])) == NormalizeBreaks(text))
      && (lineLength < 4 ==> |rows| == |SplitLines(text)| + 2 && forall i :: 0 < i < |rows| - 1 ==> rows[i] == "#")
  {
    var text := Trim(CleanTrace(marker, Buffered(Header(message, values.actualType, values.expectedType), values)));
    assert Diagnostic(values, marker, message, lineLength) == Box(lineLength, RenderAll(SplitLines(text), lineLength));
    BoxedTextRows(text, lineLength);
  }

  /** The diagnostic starts with a rule and a `#`, and ends with a line feed and a rule. */
  lemma DiagnosticFramed(values: Values, marker: string, message: string, lineLength: int)
    requires |marker| > 0 && lineLength >= 1
    ensures var d := Diagnostic(values, marker, message, lineLength);
      var top := Rule(lineLength) + EOL + "#";
      var bottom := EOL + Rule(lineLength);
      && |d| >= |top| + |bottom|
      && d[..|top|] == top && d[|d| - |bottom|..] == bottom
  {
    var header := Header(message, values.actualType, values.expectedType);
    var text := CleanTrace(marker, Buffered(header, values));
    var joined := Join(EOL + "#", RenderAll(SplitLines(Trim(text)), lineLength));
    var rule := Rule(lineLength);
    assert Diagnostic(values, marker, message, lineLength) == rule + EOL + "#" + joined + EOL + rule;
    Framed(rule, EOL, "#", joined);
  }

  /** A text built as the template builds it starts with its top and ends with its bottom. */
  lemma Framed(rule: string, sep: string, h: string, body: string)
    ensures var d := rule + sep + h + body + sep + rule;
      && d[..|rule + sep + h|] == rule + sep + h
      && d[|d| - |sep + rule|..] == sep + rule
  {
    var d := rule + sep + h + body + sep + rule;
    assert d == (rule + sep + h) + body + (sep + rule);
  }

  /**
   * What `assertTrue` receives: always the result of `===` as the condition;
   * on the fast path the caller's message untouched, otherwise the framed
   * diagnostic.
   */
  lemma ReportedMessage(values: Values, marker: string, message: string, lineLength: int)
    requires |marker| > 0
    ensures var r := Reported(values, marker, message, lineLength);
      && r.condition == values.identical
      && (FastPath(values.identical, lineLength) ==> r.message == message)
      && (!FastPath(values.identical, lineLength) ==>
            var top := Rule(lineLength) + EOL + "#";
            var bottom := EOL + Rule(lineLength);
            && |r.message| >= |top| + |bottom|
            && r.message[..|top|] == top && r.message[|r.message| - |bottom|..] == bottom)
  {
    if !FastPath(values.identical, lineLength) {
      DiagnosticFramed(values, marker, message, lineLength);
    }
  }
}

=== FILE: labels.dfy ===
/**
 * Where the `EXPECTED:` label of the diagnostic ends up.
 *
 * The output buffer holds the header, a blank line and the line
 * `EXPECTED: ` before the first dump. As long as the trace marker does not
 * occur before that label, the trace cleanup and the trim leave it in
 * place, so the message read back from the box holds the header's lines,
 * a blank line, and then a line starting with `EXPECTED:`. The box wraps
 * every line at `lineLength - 3` characters, so the literal label shows in
 * one row only from `lineLength` 12 up.
 */
module Labels {
  import opened Php
  import opened SummaryLine
  import opened AssertExactEquals
  import opened BoxLayout

  const ExpectedLabel: string := "EXPECTED:"

  /** A line that starts with the expected label. */
  predicate StartsWithLabel(line: string)
  {
    ExpectedLabel <= line
  }

  /** The buffer's contents up to and including the expected label, without its trailing blank. */
  function ExpectedHead(header: string): string
  {
    header + EOL + EOL + ExpectedLabel
  }

  /** The header starts with a character `trim` keeps and ends with the summary's last character. */
  lemma HeaderEnds(message: string, actualType: string, expectedType: string)
    ensures var h := Header(message, actualType, expectedType);
      |h| > 0 && !IsTrimmable(h[0]) && h[|h| - 1] == 'e'
  {
    var summary := Summary(actualType, expectedType);
    var lead := Lead(Trim(message));
    assert summary[0] == 'A' && summary[|summary| - 1] == 'e';
    var h := lead + summary;
    assert h[|h| - 1] == summary[|summary| - 1];
    if lead != "" {
      assert h[0] == Trim(message)[0];
    }
  }

  /** Trimming keeps a front that starts and ends with characters it does not strip. */
  lemma TrimKeepsFront(c: string, p: string)
    requires p <= c && |p| > 0 && !IsTrimmable(p[0]) && !IsTrimmable(p[|p| - 1])
    ensures p <= Trim(c)
  {
    var l := LTrim(c);
    assert c[0] == p[0];
    assert l == c;
    assert l[|p| - 1] == p[|p| - 1];
  }

  /** The buffer starts with the header, a blank line and the expected label. */
  lemma BufferedStart(header: string, values: Values)
    ensures ExpectedHead(header) <= Buffered(header, values)
  {
    var b := Buffered(header, values);
    var k := ExpectedHead(header);
    assert b == k + (" " + EOL + values.expectedDump + EOL + "ACTUAL: " + EOL + values.actualDump);
  }

  /** A front of the text that ends before the marker's first occurrence survives the cleanup and the trim. */
  lemma CleanedFront(marker: string, b: string, k: string)
    requires |marker| > 0 && k <= b && |k| <= FindFrom(marker, b, 0)
    requires |k| > 0 && !IsTrimmable(k[0]) && !IsTrimmable(k[|k| - 1])
    ensures k <= Trim(CleanTrace(marker, b))
  {
    var c := CleanTrace(marker, b);
    CleanTraceKeepsHead(marker, b);
    assert k <= c by {
      var f := FindFrom(marker, b, 0);
      assert k == b[..f][..|k|];
    }
    TrimKeepsFront(c, k);
  }

  /** The buffer's start begins with the header's first character and ends with the label's colon. */
  lemma ExpectedHeadEnds(header: string)
    requires |header| > 0
    ensures var k := ExpectedHead(header);
      |k| > 0 && k[0] == header[0] && k[|k| - 1] == ':'
  {
    var k := ExpectedHead(header);
    assert k == (header + EOL + EOL) + ExpectedLabel;
    assert k[|k| - 1] == ExpectedLabel[|ExpectedLabel| - 1];
  }

  /** An LF in front of a line starting with the label: an empty line, then that line. */
  lemma LabelLines(labelled: string)
    requires ExpectedLabel <= labelled
    ensures SplitLines("\n" + labelled) == [""] + SplitLines(labelled)
    ensures StartsWithLabel(SplitLines(labelled)[0])
  {
    LeadingLf(labelled);
    LabelNoBreak();
    FirstLineKeeps(ExpectedLabel, labelled);
  }

  /** An LF in front of a text adds an empty first line. */
  lemma LeadingLf(t: string)
    ensures SplitLines("\n" + t) == [""] + SplitLines(t)
  {
    assert "" + "\n" + t == "\n" + t;
    SplitLinesAfterLf("", t);
    assert SplitLines("") == [""];
  }

  /** A break-free start of a text is the start of its first line. */
  lemma FirstLineKeeps(p: string, t: string)
    requires NoBreak(p) && p <= t
    ensures p <= SplitLines(t)[0]
  {
    assert t[..|p|] == p;
    SplitLinesHead(t, |p|);
  }

  /** The label holds no line break: capital letters and a colon. */
  lemma LabelNoBreak()
    ensures NoBreak(ExpectedLabel)
  {
    forall j | 0 <= j < |ExpectedLabel| ensures !IsBreak(ExpectedLabel[j]) {
      assert 'A' <= ExpectedLabel[j] <= 'Z' || ExpectedLabel[j] == ':';
    }
  }

  /**
   * The lines of a text that starts with the header, a blank line and the
   * label: the header's lines, an empty line, then a line starting with the label.
   */
  lemma LinesAfterHeader(header: string, text: string)
    requires |header| > 0 && header[|header| - 1] != '\r'
    requires ExpectedHead(header) <= text
    ensures var lines := SplitLines(text);
      var n := |SplitLines(header)|;
      && |lines| >= n + 2
      && lines[..n] == SplitLines(header)
      && lines[n] == ""
      && StartsWithLabel(lines[n + 1])
  {
    var labelled := text[|header| + 2..];
    assert text == header + "\n" + ("\n" + labelled) by {
      assert text == ExpectedHead(header) + text[|ExpectedHead(header)|..];
    }
    assert ExpectedLabel <= labelled;
    SplitLinesAfterLf(header, "\n" + labelled);
    LabelLines(labelled);
  }

  /**
   * From `lineLength` 4 up, the message read back from the diagnostic's
   * rows holds the header's lines, a blank line and a line starting with
   * `EXPECTED:`, provided the marker does not occur before that label.
   */
  lemma ExpectedLabelReadBack(values: Values, marker: string, message: string, lineLength: int)
    requires |marker| > 0 && lineLength >= 4
    requires var header := Header(message, values.actualType, values.expectedType);
      |ExpectedHead(header)| <= FindFrom(marker, Buffered(header, values), 0)
    ensures var rows := Explode(EOL, Diagnostic(values, marker, message, lineLength));
      var header := Header(message, values.actualType, values.expectedType);
      var n := |SplitLines(header)|;
      && |rows| >= 3
      && var lines := Unbox(rows[1..|rows| - 1]);
      && |lines| >= n + 2
      && lines[..n] == SplitLines(header)
      && lines[n] == ""
      && StartsWithLabel(lines[n + 1])
  {
    DiagnosticRows(values, marker, message, lineLength);
    MessageLines(values, marker, message);
  }

  /**
   * The cleaned, trimmed lines of the buffered message of these values:
   * the header's lines, a blank line and a line starting with `EXPECTED:`,
   * provided the marker does not occur before that label.
   */
  lemma MessageLines(values: Values, marker: string, message: string)
    requires |marker| > 0
    requires var header := Header(message, values.actualType, values.expectedType);
      |ExpectedHead(header)| <= FindFrom(marker, Buffered(header, values), 0)
    ensures var header := Header(message, values.actualType, values.expectedType);
      var lines := SplitLines(Trim(CleanTrace(marker, Buffered(header, values))));
      var n := |SplitLines(header)|;
      && |lines| >= n + 2
      && lines[..n] == SplitLines(header)
      && lines[n] == ""
      && StartsWithLabel(lines[n + 1])
  {
    HeaderEnds(message, values.actualType, values.expectedType);
    BufferedLines(Header(message, values.actualType, values.expectedType), values, marker);
  }

  /**
   * The cleaned, trimmed lines of the buffered message: the header's lines,
   * a blank line and a line starting with `EXPECTED:`, provided the marker
   * does not occur before that label.
   */
  lemma BufferedLines(header: string, values: Values, marker: string)
    requires |marker| > 0 && |header| > 0 && !IsTrimmable(header[0]) && header[|header| - 1] == 'e'
    requires |ExpectedHead(header)| <= FindFrom(marker, Buffered(header, values), 0)
    ensures var lines := SplitLines(Trim(CleanTrace(marker, Buffered(header, values))));
      var n := |SplitLines(header)|;
      && |lines| >= n + 2
      && lines[..n] == SplitLines(header)
      && lines[n] == ""
      && StartsWithLabel(lines[n + 1])
  {
    BufferedStart(header, values);
    LabelAfterCleanup(header, Buffered(header, values), marker);
  }

  /**
   * A buffer that starts with the header, a blank line and the label, with
   * no marker before the label's end: its cleaned, trimmed lines are the
   * header's lines, an empty line, and a line starting with the label.
   */
  lemma LabelAfterCleanup(header: string, buffer: string, marker: string)
    requires |marker| > 0 && |header| > 0 && !IsTrimmable(header[0]) && header[|header| - 1] == 'e'
    requires ExpectedHead(header) <= buffer && |ExpectedHead(header)| <= FindFrom(marker, buffer, 0)
    ensures var lines := SplitLines(Trim(CleanTrace(marker, buffer)));
      var n := |SplitLines(header)|;
      && |lines| >= n + 2
      && lines[..n] == SplitLines(header)
      && lines[n] == ""
      && StartsWithLabel(lines[n + 1])
  {
    var text := Trim(CleanTrace(marker, buffer));
    assert ExpectedHead(header) <= text by {
      ExpectedHeadEnds(header);
      CleanedFront(marker, buffer, ExpectedHead(header));
    }
    LinesAfterHeader(header, text);
  }
}

=== FILE: php.dfy ===
/**
 * Models of the PHP string builtins that `assertExactEquals` relies on:
 * `implode`, `explode`, `trim`/`ltrim`, `ctype_digit`, `str_split`,
 * `str_repeat` and `preg_split('~\R~u', ...)`.
 *
 * Strings are sequences of characters; PHP works on bytes, so the model
 * agrees with PHP on single-byte text only.
 */
module Php {

  /** PHP_EOL, fixed to the Unix line break. */
  const EOL: string := "\n"

  // ---------------------------------------------------------------------
  // implode
  // ---------------------------------------------------------------------

  /** implode('', parts) */
  function Concat(parts: seq<string>): string
  {
    if parts == [] then "" else parts[0] + Concat(parts[1..])
  }

  /** implode(sep, parts) */
  function Join(sep: string, parts: seq<string>): string
  {
    if |parts| == 0 then ""
    else if |parts| == 1 then parts[0]
    else parts[0] + sep + Join(sep, parts[1..])
  }

  /** A list of two or more parts: the first, the separator, then the rest joined. */
  lemma JoinCons(sep: string, parts: seq<string>)
    requires |parts| > 1
    ensures Join(sep, parts) == parts[0] + (sep + Join(sep, parts[1..]))
  {
  }

  /** Joining two non-empty lists puts exactly one separator between them. */
  lemma {:induction false} JoinAppend(sep: string, a: seq<string>, b: seq<string>)
    requires |a| > 0 && |b| > 0
    ensures Join(sep, a + b) == Join(sep, a) + sep + Join(sep, b)
  {
    if |a| == 1 {
      assert a + b == [a[0]] + b;
      assert (a + b)[1..] == b;
    } else {
      assert (a + b)[1..] == a[1..] + b;
      JoinAppend(sep, a[1..], b);
    }
  }

  /** Prepending text to a joined list is prepending it to the first element. */
  lemma JoinPrepend(pre: string, sep: string, a: seq<string>)
    requires |a| > 0
    ensures pre + Join(sep, a) == Join(sep, [pre + a[0]] + a[1..])
  {
    var b := [pre + a[0]] + a[1..];
    assert b[1..] == a[1..];
  }

  /** Cutting a prefix off the first part cuts it off the joined text. */
  lemma JoinHeadSuffix(sep: string, parts: seq<string>, pre: string, x: string)
    requires |parts| >= 1 && parts[0] == pre + x
    ensures Join(sep, parts) == pre + Join(sep, [x] + parts[1..])
  {
    JoinPrepend(pre, sep, [x] + parts[1..]);
    assert [pre + x] + ([x] + parts[1..])[1..] == parts;
  }

  /** Every character of a part of a `Concat` occurs in the concatenation. */
  lemma {:induction false} ConcatContains(parts: seq<string>, i: nat, c: char)
    requires i < |parts| && c in parts[i]
    ensures c in Concat(parts)
  {
    if i > 0 {
      ConcatContains(parts[1..], i - 1, c);
    }
  }

  // ---------------------------------------------------------------------
  // explode
  // ---------------------------------------------------------------------

  /** `sep` occurs in `s` starting at index `i`. */
  predicate MatchAt(sep: string, s: string, i: int)
  {
    0 <= i && i + |sep| <= |s| && s[i..i + |sep|] == sep
  }

  /** `sep` occurs nowhere in `s`. */
  predicate Free(sep: string, s: string)
  {
    forall i :: 0 <= i < |s| ==> !MatchAt(sep, s, i)
  }

  /** The first index at or after `i` where `sep` occurs in `s`, or `|s|` if none does. */
  function FindFrom(sep: string, s: string, i: nat): (k: nat)
    requires |sep| > 0 && i <= |s|
    ensures i <= k <= |s|
    ensures forall j :: i <= j < k ==> !MatchAt(sep, s, j)
    ensures k < |s| ==> MatchAt(sep, s, k)
    decreases |s| - i
  {
    if i == |s| then |s|
    else if MatchAt(sep, s, i) then i
    else FindFrom(sep, s, i + 1)
  }

  /**
   * explode(sep, s): split `s` at every occurrence of `sep`, scanning left
   * to right. PHP refuses an empty separator; every caller here passes a
   * non-empty one.
   */
  function Explode(sep: string, s: string): (r: seq<string>)
    requires |sep| > 0
    ensures |r| >= 1
    ensures Join(sep, r) == s
    decreases |s|
  {
    var k := FindFrom(sep, s, 0);
    if k == |s| then [s]
    else
      var rest := Explode(sep, s[k + |sep|..]);
      JoinCut(sep, s, k, rest);
      [s[..k]] + rest
  }

  /**
   * The first piece of `explode` is the text before the first occurrence
   * of the separator; there is a single piece exactly when the separator
   * does not occur.
   */
  lemma ExplodeFirst(sep: string, s: string)
    requires |sep| > 0
    ensures Explode(sep, s)[0] == s[..FindFrom(sep, s, 0)]
    ensures forall j :: 0 <= j < FindFrom(sep, s, 0) ==> !MatchAt(sep, s, j)
    ensures |Explode(sep, s)| == 1 <==> Free(sep, s)
  {
    var k := FindFrom(sep, s, 0);
    if k < |s| {
      assert MatchAt(sep, s, k);
    }
  }

  /** No piece of `explode` holds the separator. */
  lemma {:induction false} ExplodeFree(sep: string, s: string)
    requires |sep| > 0
    ensures forall i :: 0 <= i < |Explode(sep, s)| ==> Free(sep, Explode(sep, s)[i])
    decreases |s|
  {
    var k := FindFrom(sep, s, 0);
    if k == |s| {
      FreeBefore(sep, s, |s|);
      assert s[..|s|] == s;
    } else {
      FreeBefore(sep, s, k);
      ExplodeFree(sep, s[k + |sep|..]);
    }
  }

  /** Cutting `s` around an occurrence of `sep` and joining the two sides again gives `s` back. */
  lemma JoinCut(sep: string, s: string, k: nat, rest: seq<string>)
    requires MatchAt(sep, s, k)
    requires |rest| >= 1 && Join(sep, rest) == s[k + |sep|..]
    ensures Join(sep, [s[..k]] + rest) == s
  {
    var head := s[..k];
    JoinAppend(sep, [head], rest);
    assert Join(sep, [head]) == head;
    assert s[k..k + |sep|] == sep;
    SliceThree(s, k, k + |sep|);
  }

  /** A string is its three consecutive slices. */
  lemma SliceThree(s: string, i: nat, j: nat)
    requires i <= j <= |s|
    ensures s == s[..i] + s[i..j] + s[j..]
  {
  }

  /** Concatenation regroups. */
  lemma Regroup3(a: string, b: string, c: string)
    ensures a + b + c == a + (b + c)
  {
  }

  /** The text before the first occurrence holds no occurrence. */
  lemma FreeBefore(sep: string, s: string, k: nat)
    requires |sep| > 0 && k <= |s|
    requires forall j :: 0 <= j < k ==> !MatchAt(sep, s, j)
    ensures Free(sep, s[..k])
  {
    var head := s[..k];
    forall j | 0 <= j < |head| ensures !MatchAt(sep, head, j) {
      assert !MatchAt(sep, s, j);
      if j + |sep| <= |head| {
        assert head[j..j + |sep|] == s[j..j + |sep|];
      }
    }
  }

  /** The first occurrence of a one-character separator is where `explode` cuts. */
  lemma ExplodeCut(c: char, s: string, k: nat)
    requires k < |s| && s[k] == c && c !in s[..k]
    ensures Explode([c], s) == [s[..k]] + Explode([c], s[k + 1..])
  {
    CharAbsent(c, s, k);
    assert s[k..k + 1] == [c];
    FindFirst([c], s, 0, k);
    assert FindFrom([c], s, 0) == k;
  }

  /** A character missing from `s[..k]` matches nowhere before `k`. */
  lemma CharAbsent(c: char, s: string, k: nat)
    requires k <= |s| && c !in s[..k]
    ensures forall j :: 0 <= j < k ==> !MatchAt([c], s, j)
  {
    forall j | 0 <= j < k ensures !MatchAt([c], s, j) {
      assert s[j] == s[..k][j];
      assert s[j..j + 1] == [s[j]];
    }
  }

  /** A text with the separator exactly once splits into the parts on either side of it. */
  lemma ExplodeOnce(sep: string, head: string, tail: string)
    requires |sep| > 0
    requires forall j :: 0 <= j < |head| ==> !MatchAt(sep, head + sep + tail, j)
    requires Free(sep, tail)
    ensures Explode(sep, head + sep + tail) == [head, tail]
  {
    var s := head + sep + tail;
    assert s[|head|..|head| + |sep|] == sep;
    FindFirst(sep, s, 0, |head|);
    assert s[..|head|] == head && s[|head| + |sep|..] == tail;
    assert FindFrom(sep, tail, 0) == |tail|;
  }

  /** A separator, a field without it and a separator in front of `rest` split off as an empty field and that field. */
  lemma ExplodeLeadingField(c: char, x: string, rest: string)
    requires c !in x
    ensures Explode([c], [c] + x + [c] + rest) == ["", x] + Explode([c], rest)
  {
    var f := [c] + x + [c] + rest;
    var g := x + [c] + rest;
    assert f[0] == c && f[..0] == [] && f[1..] == g;
    ExplodeCut(c, f, 0);
    assert g[..|x|] == x && g[|x|] == c && g[|x| + 1..] == rest;
    ExplodeCut(c, g, |x|);
  }

  /** With a one-character separator, `explode` undoes `implode` on parts free of it. */
  lemma {:induction false} ExplodeJoin(c: char, parts: seq<string>)
    requires |parts| > 0
    requires forall i :: 0 <= i < |parts| ==> c !in parts[i]
    ensures Explode([c], Join([c], parts)) == parts
  {
    var s := Join([c], parts);
    if |parts| == 1 {
      assert Free([c], s) by {
        forall j | 0 <= j < |s| ensures !MatchAt([c], s, j) {
          assert s[j..j + 1] == [s[j]];
        }
      }
    } else {
      var p := parts[0];
      JoinCons([c], parts);
      assert s[..|p|] == p && s[|p|] == c && s[|p| + 1..] == Join([c], parts[1..]);
      ExplodeCut(c, s, |p|);
      ExplodeJoin(c, parts[1..]);
    }
  }

  /** `FindFrom` returns the first occurrence. */
  lemma {:induction false} FindFirst(sep: string, s: string, i: nat, k: nat)
    requires |sep| > 0 && i <= k < |s|
    requires forall j :: i <= j < k ==> !MatchAt(sep, s, j)
    requires MatchAt(sep, s, k)
    ensures FindFrom(sep, s, i) == k
    decreases k - i
  {
    if i < k {
      FindFirst(sep, s, i + 1, k);
    }
  }

  // ---------------------------------------------------------------------
  // trim, ltrim, ctype_digit
  // ---------------------------------------------------------------------

  /** The characters `trim` and `ltrim` strip by default: " \t\n\r\0\x0B". */
  predicate IsTrimmable(c: char)
  {
    c == ' ' || c == '\t' || c == '\n' || c == '\r' || c == '\0' || c == '\U{B}'
  }

  /** ltrim(s): strip leading trimmable characters. */
  function LTrim(s: string): (r: string)
    ensures |r| <= |s| && r == s[|s| - |r|..]
    ensures forall i :: 0 <= i < |s| - |r| ==> IsTrimmable(s[i])
    ensures r == [] || !IsTrimmable(r[0])
  {
    if s != [] && IsTrimmable(s[0]) then LTrim(s[1..]) else s
  }

  /** rtrim(s): strip trailing trimmable characters. */
  function RTrim(s: string): (r: string)
    ensures |r| <= |s| && r == s[..|r|]
    ensures forall i :: |r| <= i < |s| ==> IsTrimmable(s[i])
    ensures r == [] || !IsTrimmable(r[|r| - 1])
  {
    if s != [] && IsTrimmable(s[|s| - 1]) then RTrim(s[..|s| - 1]) else s
  }

  /** Left-trimming stops at the first character that is not trimmable, wherever it comes from. */
  lemma {:induction false} LTrimAppend(x: string, t: string)
    requires t == [] || !IsTrimmable(t[0])
    ensures LTrim(x + t) == LTrim(x) + t
  {
    if x != [] {
      assert (x + t)[0] == x[0] && (x + t)[1..] == x[1..] + t;
      LTrimAppend(x[1..], t);
    }
  }

  /** Left-trimming the first part is left-trimming the joined text, when the separator is not whitespace. */
  lemma JoinLTrimHead(sep: string, parts: seq<string>)
    requires |parts| >= 1 && |sep| > 0 && !IsTrimmable(sep[0])
    ensures Join(sep, [LTrim(parts[0])] + parts[1..]) == LTrim(Join(sep, parts))
  {
    if |parts| > 1 {
      var kept := [LTrim(parts[0])] + parts[1..];
      assert kept[1..] == parts[1..];
      JoinCons(sep, parts);
      JoinCons(sep, kept);
      LTrimAppend(parts[0], sep + Join(sep, parts[1..]));
    }
  }

  /**
   * trim(s): the left-trimmed text with its trailing run of trimmable
   * characters cut off, so nothing trimmable is left at either end.
   */
  function Trim(s: string): (r: string)
    ensures r <= LTrim(s)
    ensures forall i :: |r| <= i < |LTrim(s)| ==> IsTrimmable(LTrim(s)[i])
    ensures r == [] || (!IsTrimmable(r[0]) && !IsTrimmable(r[|r| - 1]))
  {
    RTrim(LTrim(s))
  }

  predicate IsDigit(c: char)
  {
    '0' <= c <= '9'
  }

  /** ctype_digit(s): non-empty and made only of ASCII digits. */
  predicate IsDigits(s: string)
  {
    |s| > 0 && forall i :: 0 <= i < |s| ==> IsDigit(s[i])
  }

  // ---------------------------------------------------------------------
  // str_repeat, str_split
  // ---------------------------------------------------------------------

  /** str_repeat(c, n) for a single character; PHP refuses a negative count. */
  function Repeat(c: char, n: nat): (r: string)
    ensures |r| == n && forall i :: 0 <= i < n ==> r[i] == c
  {
    seq(n, _ => c)
  }

  /**
   * str_split(s, w): cut `s` into chunks of `w` characters, the last one
   * possibly shorter. As in PHP 8.2 and later, the empty string gives no
   * chunk at all.
   */
  function Chunks(s: string, w: nat): (r: seq<string>)
    requires w >= 1
    ensures Concat(r) == s
    ensures forall i :: 0 <= i < |r| ==> 1 <= |r[i]| <= w
    ensures forall i :: 0 <= i < |r| - 1 ==> |r[i]| == w
    ensures |r| == 0 <==> s == []
    decreases |s|
  {
    if s == [] then []
    else if |s| <= w then [s]
    else
      assert s == s[..w] + s[w..];
      [s[..w]] + Chunks(s[w..], w)
  }

  // ---------------------------------------------------------------------
  // preg_split('~\R~u', s)
  // ---------------------------------------------------------------------

  /** The characters `\R` matches on its own: LF, CR, VT, FF, NEL, LS and PS. */
  predicate IsBreak(c: char)
  {
    c == '\n' || c == '\r' || c == '\U{B}' || c == '\U{C}' || c == '\U{85}' || c == '\U{2028}' || c == '\U{2029}'
  }

  predicate NoBreak(s: string)
  {
    forall i :: 0 <= i < |s| ==> !IsBreak(s[i])
  }

  /** The first index at or after `i` holding a line-break character, or `|s|`. */
  function NextBreak(s: string, i: nat): (k: nat)
    requires i <= |s|
    ensures i <= k <= |s|
    ensures forall j :: i <= j < k ==> !IsBreak(s[j])
    ensures k < |s| ==> IsBreak(s[k])
    decreases |s| - i
  {
    if i == |s| || IsBreak(s[i]) then i else NextBreak(s, i + 1)
  }

  /** Length of the line break at index `k`: CR LF counts as one break of two characters. */
  function BreakLength(s: string, k: nat): (n: nat)
    requires k < |s| && IsBreak(s[k])
    ensures 1 <= n && k + n <= |s|
  {
    if s[k] == '\r' && k + 1 < |s| && s[k + 1] == '\n' then 2 else 1
  }

  /** preg_split('~\R~u', s): the lines of `s`, without their line breaks. */
  function SplitLines(s: string): (r: seq<string>)
    ensures |r| >= 1
    ensures forall i :: 0 <= i < |r| ==> NoBreak(r[i])
    decreases |s|
  {
    var k := NextBreak(s, 0);
    if k == |s| then [s]
    else [s[..k]] + SplitLines(s[k + BreakLength(s, k)..])
  }

  /**
   * Reference reading of the line structure of `s`: every line break
   * (CR LF taken as one) becomes a single LF.
   */
  function NormalizeBreaks(s: string): (r: string)
    decreases |s|
  {
    if s == [] then ""
    else if s[0] == '\r' && |s| >= 2 && s[1] == '\n' then EOL + NormalizeBreaks(s[2..])
    else if IsBreak(s[0]) then EOL + NormalizeBreaks(s[1..])
    else [s[0]] + NormalizeBreaks(s[1..])
  }

  /** A break-free prefix passes through `NormalizeBreaks` unchanged. */
  lemma {:induction false} NormalizePrefix(s: string, k: nat)
    requires k <= |s| && forall j :: 0 <= j < k ==> !IsBreak(s[j])
    ensures NormalizeBreaks(s) == s[..k] + NormalizeBreaks(s[k..])
  {
    if k > 0 {
      var t := s[1..];
      assert forall j :: 0 <= j < k - 1 ==> t[j] == s[j + 1];
      NormalizePrefix(t, k - 1);
      assert !IsBreak(s[0]);
      assert NormalizeBreaks(s) == [s[0]] + NormalizeBreaks(t);
      assert t[..k - 1] == s[1..k] && t[k - 1..] == s[k..];
      assert [s[0]] + s[1..k] == s[..k];
      Regroup3([s[0]], s[1..k], NormalizeBreaks(s[k..]));
    } else {
      assert s[..0] == [] && s[0..] == s;
    }
  }

  /** A line feed that does not follow a carriage return ends a line: the lines on either side stay apart. */
  lemma {:induction false} SplitLinesAfterLf(a: string, b: string)
    requires a == [] || a[|a| - 1] != '\r'
    ensures SplitLines(a + "\n" + b) == SplitLines(a) + SplitLines(b)
    decreases |a|
  {
    var k := NextBreak(a, 0);
    if k == |a| {
      LastLineBeforeLf(a, b);
    } else {
      var rest := a[k + BreakLength(a, k)..];
      var first := [a[..k]];
      assert SplitLines(a) == first + SplitLines(rest)
        && SplitLines(a + "\n" + b) == first + SplitLines(rest + "\n" + b) by {
        BreakBeforeLf(a, b, k);
      }
      assert SplitLines(rest + "\n" + b) == SplitLines(rest) + SplitLines(b) by {
        assert rest == [] || rest[|rest| - 1] == a[|a| - 1];
        SplitLinesAfterLf(rest, b);
      }
      assert first + (SplitLines(rest) + SplitLines(b)) == (first + SplitLines(rest)) + SplitLines(b);
    }
  }

  /** The first break of a text is the index the break-free run stops at. */
  lemma NextBreakIs(s: string, k: nat)
    requires k <= |s| && forall j :: 0 <= j < k ==> !IsBreak(s[j])
    requires k < |s| ==> IsBreak(s[k])
    ensures NextBreak(s, 0) == k
  {
  }

  /** A break-free line followed by a line feed is a line of its own. */
  lemma LastLineBeforeLf(a: string, b: string)
    requires NextBreak(a, 0) == |a|
    ensures SplitLines(a) == [a]
    ensures SplitLines(a + "\n" + b) == [a] + SplitLines(b)
  {
    var s := a + "\n" + b;
    assert forall j :: 0 <= j < |a| ==> s[j] == a[j];
    NextBreakIs(s, |a|);
    assert s[..|a|] == a && s[|a| + 1..] == b;
  }

  /** A break inside `a`, not a CR right before the added LF, splits `a + LF + b` where it splits `a`. */
  lemma BreakBeforeLf(a: string, b: string, k: nat)
    requires a == [] || a[|a| - 1] != '\r'
    requires k == NextBreak(a, 0) && k < |a|
    ensures var rest := a[k + BreakLength(a, k)..];
      && SplitLines(a) == [a[..k]] + SplitLines(rest)
      && SplitLines(a + "\n" + b) == [a[..k]] + SplitLines(rest + "\n" + b)
  {
    var c := "\n" + b;
    var s := a + c;
    assert a + "\n" + b == s;
    var n := BreakLength(a, k);
    AppendSlices(a, c, k);
    AppendSlices(a, c, k + n);
    NextBreakIs(s, k);
    assert BreakLength(s, k) == n by {
      assert a[k] == '\r' ==> k + 1 < |a|;
    }
    assert SplitLines(s) == [s[..k]] + SplitLines(s[k + n..]);
    assert a[k + n..] + "\n" + b == s[k + n..];
  }

  /** Slicing `a + c` within `a` slices `a`. */
  lemma AppendSlices(a: string, c: string, i: nat)
    requires i <= |a|
    ensures forall j :: 0 <= j < |a| ==> (a + c)[j] == a[j]
    ensures (a + c)[..i] == a[..i] && (a + c)[i..] == a[i..] + c
  {
  }

  /** A break-free start of a text is the start of its first line. */
  lemma SplitLinesHead(s: string, k: nat)
    requires k <= |s| && forall j :: 0 <= j < k ==> !IsBreak(s[j])
    ensures s[..k] <= SplitLines(s)[0]
  {
    assert NextBreak(s, 0) >= k;
  }

  /** The lines, joined with LF, are the text with every line break made an LF. */
  lemma {:induction false} SplitLinesJoin(s: string)
    ensures Join(EOL, SplitLines(s)) == NormalizeBreaks(s)
    decreases |s|
  {
    var k := NextBreak(s, 0);
    if k == |s| {
      NormalizePrefix(s, |s|);
      assert s[..|s|] == s && s[|s|..] == [];
      assert Join(EOL, [s]) == s;
    } else {
      var n := BreakLength(s, k);
      var rest := s[k + n..];
      var head := s[..k];
      SplitLinesJoin(rest);
      NormalizePrefix(s, k);
      NormalizeAtBreak(s, k);
      assert SplitLines(s) == [head] + SplitLines(rest);
      JoinAppend(EOL, [head], SplitLines(rest));
      assert Join(EOL, [head]) == head;
      Regroup3(head, EOL, NormalizeBreaks(rest));
    }
  }

  /** A line break, whichever it is, normalises to one LF. */
  lemma NormalizeAtBreak(s: string, k: nat)
    requires k < |s| && IsBreak(s[k])
    ensures NormalizeBreaks(s[k..]) == EOL + NormalizeBreaks(s[k + BreakLength(s, k)..])
  {
    var t := s[k..];
    if BreakLength(s, k) == 2 {
      assert t[0] == '\r' && t[1] == '\n' && t[2..] == s[k + 2..];
    } else {
      assert t[1..] == s[k + 1..];
    }
  }

  /** On text whose only line breaks are LF, splitting into lines is undone by joining with LF. */
  lemma {:induction false} SplitLinesRoundTrip(s: string)
    requires forall i :: 0 <= i < |s| ==> IsBreak(s[i]) ==> s[i] == '\n'
    ensures Join(EOL, SplitLines(s)) == s
    decreases |s|
  {
    SplitLinesJoin(s);
    NormalizeLf(s);
  }

  lemma {:induction false} NormalizeLf(s: string)
    requires forall i :: 0 <= i < |s| ==> IsBreak(s[i]) ==> s[i] == '\n'
    ensures NormalizeBreaks(s) == s
    decreases |s|
  {
    if s != [] {
      NormalizeLf(s[1..]);
    }
  }
}

=== FILE: summary_line.dfy ===
/**
 * The summary line of the diagnostic. It lives in a module of its own so
 * that its long literals stay out of the other proofs.
 */
module SummaryLine {

  const Opening: string := "Assertion Error: the $actual ("
  const Middle: string := ") value did not exactly equal the $expected ("
  const Closing: string := ") value"

  /** The fixed summary line; it names the actual value's type first. */
  function Summary(actualType: string, expectedType: string): string
  {
    Opening + (actualType + (Middle + (expectedType + Closing)))
  }

  /**
   * The summary line can be read back: it names the actual value's type
   * first and the expected value's type second. `gettype` names other than
   * "resource (closed)" hold no closing parenthesis.
   */
  lemma SummaryNamesTypes(a1: string, e1: string, a2: string, e2: string)
    requires ')' !in a1 && ')' !in a2
    requires Summary(a1, e1) == Summary(a2, e2)
    ensures a1 == a2 && e1 == e2
  {
    CancelFront(Opening, a1 + (Middle + (e1 + Closing)), a2 + (Middle + (e2 + Closing)));
    var rest := Middle[1..];
    assert Middle == [')'] + rest;
    assert forall x :: Middle + x == [')'] + (rest + x);
    FirstSlot(a1, rest + (e1 + Closing), a2, rest + (e2 + Closing), ')');
    CancelFront(rest, e1 + Closing, e2 + Closing);
    CancelBack(e1, e2, Closing);
  }

  /** Equal texts with the same front are equal after it. */
  lemma CancelFront(p: string, x: string, y: string)
    requires p + x == p + y
    ensures x == y
  {
    assert x == (p + x)[|p|..] && y == (p + y)[|p|..];
  }

  /** Equal texts with the same back are equal before it. */
  lemma CancelBack(x: string, y: string, c: string)
    requires x + c == y + c
    ensures x == y
  {
    assert x == (x + c)[..|x|] && y == (y + c)[..|y|];
  }

  /** A slot that cannot hold the character after it is read back up to that character. */
  lemma FirstSlot(a1: string, r1: string, a2: string, r2: string, ch: char)
    requires ch !in a1 && ch !in a2
    requires a1 + ([ch] + r1) == a2 + ([ch] + r2)
    ensures a1 == a2 && r1 == r2
  {
    var t1, t2 := a1 + ([ch] + r1), a2 + ([ch] + r2);
    assert |a1| == |a2| by {
      var k := if |a1| < |a2| then |a1| else |a2|;
      assert t1[k] == t2[k];
    }
    assert a1 == t1[..|a1|] && a2 == t2[..|a2|];
    assert r1 == t1[|a1| + 1..] && r2 == t2[|a2| + 1..];
  }
}
